=== FILE: README.md ===
# ANSI input parser and serial dispatcher, modelled in Dafny

This project models the input side of an Arduino serial server. The server
takes a raw byte stream from a serial link and splits it into three kinds of
traffic:

- plain characters, handed to a user callback at once;
- cursor and page commands, encoded as VT100 escape sequences, translated
  and queued;
- device strings (`ESC _`, `ESC P`, `ESC ]`, ...), captured into a bounded
  buffer and otherwise ignored.

The model covers three pieces:

- the ANSI parser of `source/ansi.c`: reset, the byte-at-a-time decoder,
  the backspace rule and the escape-sequence translator;
- the dispatcher of `source/serialServer.cpp`: `Open`, `Process` and `Run`;
- the parser's data layout from `source/ansi.h`.

Modules:

- `Ansi` (`ansi.dfy`) holds the constants, the six input states, the six
  command codes and the parser record with its bounds, `Valid`.
  - Bytes are `bv8`.
  - The escape buffer is a 65-slot sequence. The declared array has 64
    slots; the 65th is the slot the code can write one past the end.
  - The string buffer and the command queue are modelled by their
    meaningful contents. Their lengths are the source's counters.
- `AnsiParser` (`parser.dfy`) holds `Reset`, `ProcessEscape`, `Erase` and
  `Decode` as pure functions.
  - `Decode` is split into one helper per branch of the source.
  - The `switch` fallthrough from escape-sequence to CSI to string-body
    handling is a chain of calls: `SequenceByte` falls back to `CsiByte`,
    which falls back to `StringByte`.
  - `SequenceCommand` is an independent table of which captured bytes
    stand for which command. The translator is proved against it.
- `AnsiParserProperties` (`parser_properties.dfy`) holds the decoder's
  transition rules, the buffer-bound rules, the backspace rules and the
  translator rules. Each rule covers every valid parser in the states it
  names and every byte in the range it names; the index-64 slot and the
  bytes of 177 and above are included. Outside Normal, where the decoder
  never erases, every branch of the backspace rule is stated as its exact
  result for every parser in that state, whatever the string flag says. The common branches are also stated as the undoing
  of the decoder step that led there.
- `SerialServer` (`serial_server.dfy`) holds the dispatcher.
  - The callback is the trace of calls it receives: `Input(b)` for
    `OnInput`, `Command(n)` for `OnCommand` with the command's numeric
    code `n` in 0..5 (`Ansi.Code`), and `Idle` for its `Run`.
  - A flag says whether a callback is installed.
  - `Expand` is the reference meaning of the C1 handling: a byte
    0x80..0x9F, except 0x9B, stands for ESC followed by its 7-bit
    equivalent.
- `SerialServerProperties` (`serial_properties.dfy`) proves the
  dispatcher against `Expand`, plus the delivery rules of `Run`.
- `Scenarios` (`scenarios.dfy`) feeds concrete byte streams to a freshly
  opened server. Cursor keys, page keys, device strings that overflow,
  escape sequences that overrun, and the stale string flag are each shown
  end to end.

In places the code departs from the usual VT100 reading of a byte stream,
or from the translator's own comment (only 3- and 4-byte sequences
starting with ESC and '[' are cursor controls, source/ansi.c lines
36-38). The model follows the code:

- In VT100, 0x9B is the one-byte form of `ESC [`. Here it puts 0x9B, not
  ESC, in slot 0 of the escape buffer. So a control sequence started this
  way never passes the translator's `ESC [` filter
  (`CsiIntroducedFiltered`, `EightBitCsiFiltered`).
- A four-byte `ESC [ x y` whose last byte is not `~` matches neither
  mapping branch. The command variable keeps its initial value 0, so
  `Up` is pushed instead of filtering the sequence
  (`FourByteWithoutTildeIsUp`).
- The escape-buffer guard lets the index reach 64, so a byte is stored at
  index 64 of a 64-byte array. The model keeps a 65th slot for it and
  exhibits the write (`WriteAtSlot64`, `EscapeBufferSlot64Written`).

The device-string buffer's bound, by contrast, is exact. It stores up to
128 payload bytes. The abort fires only when a byte arrives with 128
already stored, so it is the 129th payload byte that aborts the string,
and the 128th is still stored (`StringOverflowOn129thByte`).

## Model

| member | source | states |
|---|---|---|
| Ansi.CodeRoundTrip | source/ansi.h:51-59 | the command codes are exactly 0..5, one per command, and converting a command to its code and back gives the command |
| AnsiParser.Reset | source/ansi.c:5-13 | reset leaves the parser in Normal with sequence index 0, empty string, cleared string flag and empty command queue; the escape buffer's bytes are kept |
| AnsiParser.ProcessEscape | source/ansi.c:22-87 | the queue-full case (32 or more commands) comes first and changes nothing, not even the sequence index; otherwise the index is reset to 0, the result is the command the reference table gives for the captured bytes (or filtered), a translated command is appended at the end with earlier ones kept, and no other field changes |
| AnsiParser.Erase | source/ansi.c:91-126 | backspace moves the state at most one level back towards Normal and drops at most one byte: either the last string byte (only in a string body) or the last escape slot, never both; the string flag, the escape bytes and the queue are never touched; bounds are kept |
| AnsiParser.Decode | source/ansi.c:136-313 | one byte keeps the bounds (index at most 64, string at most 128) and never touches the queue; it yields a character exactly for the state's data bytes, returned unchanged with the parser unchanged; it completes a sequence exactly on a final byte of Escape, EscapeSequence or Csi, and then the byte is captured, the state is Normal and nothing else changes (a stale string flag and the string survive) |
| AnsiParserProperties.NormalPassThrough | source/ansi.c:138-162 | in Normal every byte but ESC and 0x9B is returned as a character and no field changes |
| AnsiParserProperties.EscapeNeedsMore | source/ansi.c:140-194 | ESC always needs more input; in a string body it moves to Terminator, in every other state (Terminator included) it starts a new sequence with ESC in slot 0 and index 0 |
| AnsiParserProperties.CsiByteStartsSequence | source/ansi.c:147-201 | 0x9B starts a control sequence from any state, with 0x9B in slot 0, '[' in slot 1 and index 1 |
| AnsiParserProperties.ControlBytes | source/ansi.c:165-211 | outside Normal, CAN and SUB abort to Normal with empty string and cleared flag, NUL changes nothing, backspace erases, and the other bytes below 0x20 except ESC come back as characters |
| AnsiParserProperties.SequenceStatesCapture | source/ansi.c:213-220 | in Escape, EscapeSequence and Csi a byte of 0x20 or above is stored at the next slot, or dropped when the index is already 64 |
| AnsiParserProperties.EscapeTransitions | source/ansi.c:224-252 | after ESC, '[' enters Csi, a string introducer enters a receiving, empty string body, and every other non-final byte (0x20..57 and 177 and above) enters EscapeSequence, each after being captured; this holds at index 64 too, where the capture drops the byte |
| AnsiParserProperties.CsiTransitions | source/ansi.c:259-288 | in Csi, at any index, a byte of 65..176 completes the sequence with nothing but the capture and the state changed; every other byte of 0x20 and above (but 0x9B), 177 and above included, is captured (dropped at index 64) and, with the flag clear, nothing else changes, while when the string flag is set, the fallthrough also appends it to the string buffer below 128 stored bytes, or aborts to Normal with empty string and cleared flag at 128 |
| AnsiParserProperties.NonFinalByteCaptured | source/ansi.c:253-288 | in EscapeSequence or Csi with the flag clear, a byte of 0x20 and above (but 0x9B) that is not final, 177 and above included, is captured and nothing else changes: the state stays and the string buffer is not touched |
| AnsiParserProperties.ReadyEndsWithFinalByte | source/ansi.c:214-264 | a completed sequence is the captured bytes followed by its final byte when there was room for it |
| AnsiParserProperties.WriteAtSlot64 | source/ansi.c:216-218 | with the index at 63 the next byte of 0x20 or above (but 0x9B) moves the index to 64 and is stored in slot 64, one past the 64-byte array |
| AnsiParserProperties.StringStatesKeepEscapeBuffer | source/ansi.c:214-220 | in the string states, bytes other than ESC and 0x9B leave the escape buffer and its index alone and never complete a sequence |
| AnsiParserProperties.StringPayload | source/ansi.c:275-287 | a receiving string body stores payload bytes below 128 stored bytes; a byte arriving at 128 aborts to Normal with empty string and cleared flag |
| AnsiParserProperties.StringTerminatorByte | source/ansi.c:270-274 | ST ends a string body and clears the flag |
| AnsiParserProperties.TerminatorRecovery | source/ansi.c:289-307 | after a terminator's ESC, '\' ends the string; any other byte returns to the string body and appends ESC and the byte only while two bytes fit, regardless of the flag |
| AnsiParserProperties.StaleFlagAppends | source/ansi.c:253-288 | with the string flag left set, a non-final byte in Csi or EscapeSequence is captured and then, by the fallthrough, appended to the string buffer below 128 stored bytes, or aborts to Normal with empty string and cleared flag at 128 |
| AnsiParserProperties.EraseUndoesStringByte | source/ansi.c:111-117 | backspace after a stored string byte gives back the parser before that byte |
| AnsiParserProperties.EraseUndoesSequenceByte | source/ansi.c:93-125 | with the string flag clear, backspace after a byte that entered or extended Csi or EscapeSequence restores the parser and its captured sequence; only the dropped slot keeps the byte |
| AnsiParserProperties.EraseUndoesTerminatorEscape | source/ansi.c:107-110 | backspace after the ESC that entered Terminator from a string body gives back that string body, whatever the sequence index |
| AnsiParserProperties.EraseDropsLastStringByte | source/ansi.c:111-116 | in a string body backspace removes exactly the last stored byte, whether or not the string flag is set |
| AnsiParserProperties.EraseLeavesEmptyString | source/ansi.c:117-120 | in an empty string body backspace goes to Escape and changes nothing else, leaving the string flag set |
| AnsiParserProperties.EraseInsideSequence | source/ansi.c:93-125 | in Csi and EscapeSequence, whatever the string flag, backspace at index 1 goes to Escape with index 0, at a larger index only lowers the index by one, and at index 0 changes nothing; the string buffer is never touched |
| AnsiParserProperties.EraseInTerminator | source/ansi.c:107-110 | in Terminator backspace returns to the string body and changes nothing else |
| AnsiParserProperties.EraseInsideEscape | source/ansi.c:103-125 | in Escape backspace goes to Normal only at index 0; with a larger index it only lowers the index by one |
| AnsiParserProperties.ResetIsCoherent | source/ansi.c:5-13 | a reset parser satisfies the invariant that Csi and EscapeSequence hold at least one byte after slot 0 |
| AnsiParserProperties.DecodeKeepsCoherent | source/ansi.c:136-313 | decoding any byte keeps that invariant |
| AnsiParserProperties.EraseProgress | source/ansi.c:91-126 | outside Normal each backspace keeps the invariant and strictly shortens the way back to Normal |
| AnsiParserProperties.BackspacesReachNormal | source/ansi.c:178-181 | enough backspaces (depth plus index plus string length) bring any coherent parser back to Normal |
| AnsiParserProperties.NormalStaysUnderBackspace | source/ansi.c:156-160 | in Normal backspaces are plain characters and leave the parser as it is |
| AnsiParserProperties.TranslatorFilter | source/ansi.c:36-86 | a command is queued only for `ESC [ x` or `ESC [ x y`, and then exactly one is appended with earlier entries unchanged |
| AnsiParserProperties.TranslatorMapping | source/ansi.c:48-84 | `ESC [ A/B/C/D` queue Up/Down/Right/Left, `ESC [ 5 ~` and `ESC [ 6 ~` queue PgUp/PgDown, a four-byte sequence without '~' queues Up, and any other third byte of a three-byte sequence is filtered |
| AnsiParserProperties.CsiIntroducedFiltered | source/ansi.c:43-46 | a sequence with 0x9B in slot 0 is never translated |
| SerialServer.Open | source/serialServer.cpp:17-21 | opening installs the callback flag and leaves the parser in Normal with every length 0 and the string flag cleared |
| SerialServer.Deliver | source/serialServer.cpp:49-60 | a character reaches the callback exactly when one is installed and leaves the parser as it was; an incomplete sequence leaves the parser as the decoder left it; a completed sequence is translated and adds at most one command; nothing else reaches the queue |
| SerialServer.Expand | source/serialServer.cpp:32-48 | a C1 byte stands for ESC followed by a byte of 0x40..0x5F that is the C1 byte minus 0x40; every other byte stands for itself |
| SerialServer.Process | source/serialServer.cpp:29-61 | one raw byte makes at most one call, always an input call and none without a callback; a byte that is not C1 is decoded once and delivered when it is a character; the queue grows by at most one command |
| SerialServer.CommandEvents | source/serialServer.cpp:69-72 | the command calls follow the queue entry for entry, each carrying its command's numeric code |
| SerialServer.Run | source/serialServer.cpp:65-82 | with a callback, every queued command's numeric code is delivered in index order and then one idle call follows; without one, nothing is called; the queue is emptied either way and nothing else changes |
| SerialServer.ProcessAll | source/serialServer.cpp:29-61 | a stream makes only input calls, at most one per byte, and only appends to the queue, at most one command per byte |
| SerialServerProperties.C1FirstHalfSilent | source/serialServer.cpp:34-46 | the ESC fed for a C1 byte never produces an input call nor a translation |
| SerialServerProperties.C1Expansion | source/serialServer.cpp:32-60 | processing a raw byte equals delivering its expansion byte by byte |
| SerialServerProperties.StreamExpansion | source/serialServer.cpp:29-61 | processing a raw stream equals delivering its expansion byte by byte |
| SerialServerProperties.QueueFullLosesCommand | source/serialServer.cpp:57-60 | with 32 commands queued, a completed sequence leaves the queue as it was: the command is lost |
| SerialServerProperties.CompletedSequenceQueued | source/serialServer.cpp:57-60 | below capacity, a completed sequence appends exactly the command the reference table gives, or nothing |
| SerialServerProperties.RunDeliversOnce | source/serialServer.cpp:67-77 | a second cycle without new input makes only the idle call |
| SerialServerProperties.RunWithoutCallbackDiscards | source/serialServer.cpp:78-81 | without a callback a cycle empties the queue and makes no call |
| SerialServerProperties.ProcessKeepsCoherent | source/serialServer.cpp:29-61 | processing a raw byte keeps the parser invariant, so backspaces can always return to Normal |
| Scenarios.CursorKeys | source/ansi.c:49-68 | after opening, `ESC [ A/B/C/D` queues the matching cursor command with no input call, and the next cycle delivers its code and idles |
| Scenarios.PageKeys | source/ansi.c:69-82 | after opening, `ESC [ 5 ~` queues PgUp and `ESC [ 6 ~` queues PgDown |
| Scenarios.FourByteWithoutTildeIsUp | source/ansi.c:69-84 | `ESC [ 5 A` queues Up |
| Scenarios.UnmappedFinalFiltered | source/ansi.c:65-66 | `ESC [ Z` completes a sequence that queues nothing and makes no call |
| Scenarios.EightBitCsiFiltered | source/ansi.c:43-46 | 0x9B 'A' queues nothing |
| Scenarios.BackspaceAfterEscape | source/ansi.c:103-106 | ESC then backspace returns to Normal without any call |
| Scenarios.QueueFullThenDrain | source/ansi.c:29-32 | with 32 commands queued `ESC [ A` is lost; after a cycle the same bytes queue Up |
| Scenarios.StringFill | source/ansi.c:275-280 | a receiving string body stores each payload byte (any byte of 0x20 and above that is not a C1 control or 0x9B) while the buffer has room |
| Scenarios.StringOverflowOn129thByte | source/ansi.c:277-286 | `ESC _` and 128 payload bytes fill the string buffer; the 129th byte aborts to Normal with empty string and cleared flag |
| Scenarios.EscapeFill | source/ansi.c:214-220 | bytes 0x20..57 extend an escape sequence slot by slot, keeping the earlier slots, up to index 64 |
| Scenarios.EscapeBufferSlot64Written | source/ansi.c:216-218 | after opening, ESC and 64 '0' bytes leave the index at 64 with '0' stored in slot 64 |
| Scenarios.StaleFlagAfterErase | source/ansi.c:111-120 | `ESC _ BS [ 0` leaves a Csi parser with the string flag still set and '0' in the string buffer |

## Left out

- `source/dummyTerminal.cpp` is not part of this model. It is an
  Arduino demo whose echo, line buffering and host loop are I/O.
- The `volatile` command counter and sharing it between an interrupt and
  the main loop are not modelled. `Process` and `Run` are sequential
  steps on one state value.
- `ansi_decode` returns its three outcomes in a `char`. On targets where
  `char` is signed, the `ret >= 0` tests in `Process` reject every
  character of 0x80 and above. Such a byte in Normal then makes no input
  call, and 0xFE even reads as "sequence ready". Where `char` is
  unsigned, -1 and -2 arrive as 255 and 254, so `ret >= 0` always holds.
  Every byte, ESC and '[' included, then reaches `OnInput`. No command is
  ever queued, and in the C1 branch `data = ret` turns the 7-bit byte into
  0x7F. The model keeps the three outcomes apart. This matches neither
  target: it is the behaviour the three return values are meant to
  encode.
- The callback's virtual dispatch and the destructors become the event
  trace. `Close` has an empty body and is left out.
- The NUL written to the string buffer's first byte on reset and on
  CAN/SUB is not modelled. The code never reads it, because the length
  counter is 0 at those points.
- The pointer test on the string buffer in the Terminator branch is not
  modelled: the buffer is an array, so the test always passes.
- Bytes in the command array past its counter are not modelled. `Run`
  reads only entries below the counter.
- The memory effect of the write at index 64 is not modelled. The model
  keeps the byte in a 65th slot of the escape buffer. In C the write lands
  past the array. On the AVR target the struct has no padding and `int` is
  16 bits, so `escape_buffer[64]` is the low byte of `escape_buffer_last`,
  which follows the array (source/ansi.h:71-73). The write then overwrites
  the index itself with the stored byte. So the "index 64" of
  `WriteAtSlot64` and `EscapeBufferSlot64Written` is the model's reading
  of the guard, not what the target ends up holding.

=== FILE: ansi.dfy ===
/** Data layout of the ANSI input parser (source/ansi.h): buffer capacities,
    the control and key bytes the parser recognises, its six input states,
    the command codes and the parser record itself. */
module Ansi {

  // Buffer capacities.
  const EscapeBufferSize: int := 64
  const StringBufferSize: int := 128
  const CommandStackSize: int := 32

  /** Slots the model gives the escape buffer: the 64 declared ones plus the
      slot just past the end of the array, which the decoder can write when
      the sequence index is 63 (see AnsiParser.Capture). */
  const EscapeSlots: int := EscapeBufferSize + 1

  // "Standard" control bytes.
  const ChNul: bv8 := 0x00
  const ChBackspace: bv8 := 0x08
  const ChCancel: bv8 := 0x18
  const ChSubstitute: bv8 := 0x1A
  const ChEscape: bv8 := 0x1B
  const ChSpace: bv8 := 0x20
  const ChCsi: bv8 := 0x9B
  const ChSt: bv8 := 0x9C

  // Bytes that select a command inside `ESC [ x` and `ESC [ x ~`.
  const KeyPgUp: bv8 := 0x35    // '5'
  const KeyPgDown: bv8 := 0x36  // '6'
  const KeyUp: bv8 := 0x41      // 'A'
  const KeyDown: bv8 := 0x42    // 'B'
  const KeyRight: bv8 := 0x43   // 'C'
  const KeyLeft: bv8 := 0x44    // 'D'

  // Printable bytes with a structural role in sequences.
  const LeftBracket: bv8 := 0x5B  // '['
  const Backslash: bv8 := 0x5C    // '\', second byte of the string terminator ESC '\'
  const Tilde: bv8 := 0x7E        // '~'

  /** The six parser states; `Normal` is the initial one. */
  datatype InputState = Normal | Escape | EscapeSequence | Csi | StringBody | Terminator

  /** Translated commands, in the order of their numeric codes 0..5. */
  datatype CommandCode = Up | Down | Right | Left | PgUp | PgDown

  datatype Option<T> = None | Some(value: T)

  /** Numeric value of a command, as stored in the command array. */
  function Code(c: CommandCode): (n: nat)
    ensures n < 6
  {
    match c
    case Up => 0
    case Down => 1
    case Right => 2
    case Left => 3
    case PgUp => 4
    case PgDown => 5
  }

  function FromCode(n: nat): Option<CommandCode>
  {
    if n == 0 then Some(Up)
    else if n == 1 then Some(Down)
    else if n == 2 then Some(Right)
    else if n == 3 then Some(Left)
    else if n == 4 then Some(PgUp)
    else if n == 5 then Some(PgDown)
    else None
  }

  /** The numeric codes 0..5 name exactly the six commands. */
  lemma CodeRoundTrip(c: CommandCode, n: nat)
    ensures FromCode(Code(c)) == Some(c)
    ensures FromCode(n).Some? <==> n < 6
    ensures FromCode(n).Some? ==> Code(FromCode(n).value) == n
  {
  }

  /** The escape buffer: a fixed array whose contents survive resets and
      erasures; only the slots up to the sequence index are meaningful. */
  type EscapeBuffer = s: seq<bv8> | |s| == EscapeSlots witness seq(65, _ => 0)

  /** The parser record.  `escLast` is the index of the last byte of the
      current escape sequence in `esc`.  The string buffer `str` and the
      command queue `cmds` are modelled by their meaningful contents: their
      lengths are the source's length counters, and bytes past the counters
      are never read. */
  datatype Parser = Parser(
    state: InputState,
    esc: EscapeBuffer,
    escLast: int,
    str: seq<bv8>,
    receiving: bool,
    cmds: seq<CommandCode>)

  /** Bounds every reachable parser satisfies. */
  predicate Valid(p: Parser)
  {
    && 0 <= p.escLast <= EscapeBufferSize
    && |p.str| <= StringBufferSize
    && |p.cmds| <= CommandStackSize
  }

  /** `n` copies of the byte `b`. */
  function Repeat(b: bv8, n: nat): (r: seq<bv8>)
    ensures |r| == n
    ensures forall i :: 0 <= i < n ==> r[i] == b
  {
    seq(n, _ => b)
  }
}

=== FILE: parser.dfy ===
/** The ANSI/VT100 input parser of source/ansi.c: reset, the escape-sequence
    translator, the backspace rule and the byte-at-a-time decoder. */
module AnsiParser {
  import opened Ansi

  // ---------------------------------------------------------------------
  // Reset

  /** Puts the parser back into `Normal` with every buffer logically empty.
      The escape buffer's bytes are not cleared, only its index. */
  function Reset(p: Parser): (r: Parser)
    ensures Valid(r)
    ensures r.state == Normal && r.escLast == 0 && !r.receiving
    ensures r.str == [] && r.cmds == []
    ensures r.esc == p.esc
  {
    Parser(Normal, p.esc, 0, [], false, [])
  }

  // ---------------------------------------------------------------------
  // Translator

  /** Outcome of translating a completed escape sequence; the source
      returns -1, 0 and 1 respectively. */
  datatype Translation = QueueFull | Filtered | Queued(command: CommandCode)

  datatype Translated = Translated(parser: Parser, result: Translation)

  /** The bytes of the current escape sequence: slots 0..escLast. */
  function Captured(p: Parser): (s: seq<bv8>)
    requires Valid(p)
    ensures |s| == p.escLast + 1
  {
    p.esc[..p.escLast + 1]
  }

  /** Reference table: which captured sequence stands for which command.
      A four-byte `ESC [ x y` whose last byte is not '~' is mapped to `Up`:
      the translator's command variable keeps its initial value 0 there. */
  function SequenceCommand(s: seq<bv8>): Option<CommandCode>
  {
    if s == [ChEscape, LeftBracket, KeyUp] then Some(Up)
    else if s == [ChEscape, LeftBracket, KeyDown] then Some(Down)
    else if s == [ChEscape, LeftBracket, KeyRight] then Some(Right)
    else if s == [ChEscape, LeftBracket, KeyLeft] then Some(Left)
    else if s == [ChEscape, LeftBracket, KeyPgUp, Tilde] then Some(PgUp)
    else if s == [ChEscape, LeftBracket, KeyPgDown, Tilde] then Some(PgDown)
    else if |s| == 4 && s[0] == ChEscape && s[1] == LeftBracket && s[3] != Tilde then Some(Up)
    else None
  }

  function CursorCommand(b: bv8): Option<CommandCode>
  {
    if b == KeyUp then Some(Up)
    else if b == KeyDown then Some(Down)
    else if b == KeyRight then Some(Right)
    else if b == KeyLeft then Some(Left)
    else None
  }

  function PageCommand(b: bv8): Option<CommandCode>
  {
    if b == KeyPgUp then Some(PgUp)
    else if b == KeyPgDown then Some(PgDown)
    else None
  }

  /** Translates the completed escape sequence and pushes the command.
      The queue-full test comes first, so a full queue leaves the whole
      parser untouched, the sequence index included. */
  function ProcessEscape(p: Parser): (r: Translated)
    requires Valid(p)
    ensures Valid(r.parser)
    ensures |p.cmds| >= CommandStackSize <==> r.result == QueueFull
    ensures r.result == QueueFull ==> r.parser == p
    ensures r.result != QueueFull ==> r.parser.escLast == 0
    ensures r.parser.(escLast := p.escLast, cmds := p.cmds) == p
    ensures |p.cmds| < CommandStackSize ==>
      r.result == (match SequenceCommand(Captured(p))
                   case Some(c) => Queued(c)
                   case None => Filtered)
    ensures r.result.Queued? ==> r.parser.cmds == p.cmds + [r.result.command]
    ensures !r.result.Queued? ==> r.parser.cmds == p.cmds
  {
    var last := p.escLast;
    if |p.cmds| >= CommandStackSize then
      Translated(p, QueueFull)
    else
      var q := p.(escLast := 0);
      if last < 2 || last > 3 then
        Translated(q, Filtered)
      else if p.esc[0] != ChEscape || p.esc[1] != LeftBracket then
        Translated(q, Filtered)
      else
        var cmd :=
          if last == 2 then CursorCommand(p.esc[2])
          else if p.esc[3] == Tilde then PageCommand(p.esc[2])
          else Some(Up);
        match cmd
        case None => Translated(q, Filtered)
        case Some(c) => Translated(q.(cmds := p.cmds + [c]), Queued(c))
  }

  // ---------------------------------------------------------------------
  // Backspace

  /** How far a state is from `Normal` along the decoder's forward edges:
      ESC enters `Escape`; '[', an intermediate byte or a string introducer
      go one level deeper; ESC inside a string body goes one deeper still. */
  function Depth(s: InputState): nat
  {
    match s
    case Normal => 0
    case Escape => 1
    case EscapeSequence => 2
    case Csi => 2
    case StringBody => 2
    case Terminator => 3
  }

  /** Rolls the parser back by one step.  The string flag is never touched,
      so erasing out of a string body leaves it set. */
  function Erase(p: Parser): (r: Parser)
    requires Valid(p)
    ensures Valid(r)
    ensures r.esc == p.esc && r.receiving == p.receiving && r.cmds == p.cmds
    ensures p.escLast - 1 <= r.escLast <= p.escLast
    ensures r.str <= p.str && |p.str| - 1 <= |r.str|
    ensures r.state != p.state ==> Depth(r.state) + 1 == Depth(p.state)
    ensures r.str != p.str ==> r.state == p.state == StringBody && r.escLast == p.escLast
    ensures r.escLast != p.escLast ==> r.str == p.str
  {
    if p.state == Csi && p.escLast == 1 then
      p.(state := Escape, escLast := 0)
    else if p.state == EscapeSequence && p.escLast == 1 then
      p.(state := Escape, escLast := 0)
    else if p.state == Escape && p.escLast == 0 then
      p.(state := Normal)
    else if p.state == Terminator then
      p.(state := StringBody)
    else if p.state == StringBody then
      if |p.str| > 0 then p.(str := p.str[..|p.str| - 1])
      else p.(state := Escape)
    else if p.escLast > 0 then
      p.(escLast := p.escLast - 1)
    else
      p
  }

  // ---------------------------------------------------------------------
  // Decoder

  /** What one decoded byte yields: -1, -2 or the byte itself in the source.
      The source returns these in a `char`, so on targets where `char` is
      signed the bytes 0xFE and 0xFF are indistinguishable from -2 and -1;
      the model keeps the three outcomes apart. */
  datatype Outcome = NeedMore | Ready | Char(c: bv8)

  datatype Decoded = Decoded(next: Parser, outcome: Outcome)

  /** Bytes that introduce a device string after ESC: '_', 'P', 'Q', 'R',
      'X', '^' and ']'. */
  predicate IsStringIntroducer(b: bv8)
  {
    b == 0x5F || b == 0x50 || b == 0x51 || b == 0x52 || b == 0x58 || b == 0x5E || b == 0x5D
  }

  /** Bytes the decoder hands back as characters in state `s`. */
  predicate IsDataByte(s: InputState, b: bv8)
  {
    if s == Normal then b != ChEscape && b != ChCsi
    else b < ChSpace && b != ChNul && b != ChBackspace && b != ChCancel
         && b != ChSubstitute && b != ChEscape
  }

  /** Bytes that complete a sequence in state `s`. */
  predicate IsFinal(s: InputState, b: bv8)
  {
    && ChSpace <= b && b != ChCsi
    && match s
       case Escape => 58 <= b <= 176 && b != LeftBracket && !IsStringIntroducer(b)
       case EscapeSequence => 58 <= b <= 176
       case Csi => 65 <= b <= 176
       case _ => false
  }

  /** Start of a fresh escape sequence: ESC at slot 0. */
  function StartEscape(p: Parser): Parser
  {
    p.(state := Escape, esc := p.esc[0 := ChEscape], escLast := 0)
  }

  /** Start of a control sequence by the one-byte introducer 0x9B: slot 0
      receives 0x9B itself, not ESC, and slot 1 receives '['. */
  function StartCsi(p: Parser): Parser
  {
    p.(state := Csi, esc := p.esc[0 := ChCsi][1 := LeftBracket], escLast := 1)
  }

  /** Appends a byte to the escape buffer unless the index is already 64.
      The write goes to slot escLast + 1, which is 64 (one past the
      declared array) when escLast is 63. */
  function Capture(p: Parser, data: bv8): (r: Parser)
    requires Valid(p)
    ensures Valid(r)
  {
    if p.escLast < EscapeBufferSize then
      p.(esc := p.esc[p.escLast + 1 := data], escLast := p.escLast + 1)
    else
      p
  }

  /** Control bytes (below 0x20) and 0x9B outside `Normal`. */
  function ControlByte(p: Parser, data: bv8): (r: Decoded)
    requires Valid(p)
    ensures Valid(r.next)
  {
    if data == ChCancel || data == ChSubstitute then
      Decoded(p.(state := Normal, receiving := false, str := []), NeedMore)
    else if data == ChBackspace then
      Decoded(Erase(p), NeedMore)
    else if data == ChEscape then
      if p.state == StringBody then Decoded(p.(state := Terminator), NeedMore)
      else Decoded(StartEscape(p), NeedMore)
    else if data == ChCsi then
      Decoded(StartCsi(p), NeedMore)
    else if data != ChNul then
      Decoded(p, Char(data))
    else
      Decoded(p, NeedMore)
  }

  /** A byte in a string body, or one that fell through to the string-body
      handling from `Csi` or `EscapeSequence`. */
  function StringByte(q: Parser, data: bv8): (r: Decoded)
    requires Valid(q)
    ensures Valid(r.next)
  {
    if data == ChEscape then
      Decoded(q.(state := Terminator), NeedMore)
    else if data == ChSt then
      Decoded(q.(state := Normal, receiving := false), NeedMore)
    else if q.receiving then
      if |q.str| < StringBufferSize then
        Decoded(q.(str := q.str + [data]), NeedMore)
      else
        Decoded(q.(receiving := false, str := [], state := Normal), NeedMore)
    else
      Decoded(q, NeedMore)
  }

  /** `Csi`: a final byte completes the sequence, anything else falls
      through to the string-body handling. */
  function CsiByte(q: Parser, data: bv8): (r: Decoded)
    requires Valid(q)
    ensures Valid(r.next)
  {
    if data > 64 && data < 177 then Decoded(q.(state := Normal), Ready)
    else StringByte(q, data)
  }

  /** `EscapeSequence`: a final byte completes the sequence, anything else
      falls through to the `Csi` handling. */
  function SequenceByte(q: Parser, data: bv8): (r: Decoded)
    requires Valid(q)
    ensures Valid(r.next)
  {
    if data > 57 && data < 177 then Decoded(q.(state := Normal), Ready)
    else CsiByte(q, data)
  }

  /** The byte right after ESC. */
  function EscapeByte(q: Parser, data: bv8): (r: Decoded)
    requires Valid(q)
    ensures Valid(r.next)
  {
    if data == LeftBracket then
      Decoded(q.(state := Csi), NeedMore)
    else if IsStringIntroducer(data) then
      Decoded(q.(state := StringBody, receiving := true, str := []), NeedMore)
    else if data > 57 && data < 177 then
      Decoded(q.(state := Normal), Ready)
    else
      Decoded(q.(state := EscapeSequence), NeedMore)
  }

  /** A byte after the ESC of a tentative string terminator ESC '\'.  When
      it is not '\', the swallowed ESC and the byte go to the string buffer
      if two bytes still fit, whatever the string flag says; otherwise both
      are dropped. */
  function TerminatorByte(q: Parser, data: bv8): (r: Decoded)
    requires Valid(q)
    ensures Valid(r.next)
  {
    if data == Backslash then
      Decoded(q.(state := Normal, receiving := false), NeedMore)
    else
      var q1 := if data >= ChSpace then q.(state := StringBody) else q;
      if |q1.str| + 1 < StringBufferSize then
        Decoded(q1.(str := q1.str + [ChEscape, data]), NeedMore)
      else
        Decoded(q1, NeedMore)
  }

  /** A byte of 0x20 or above, other than 0x9B, outside `Normal`. */
  function SequencePart(p: Parser, data: bv8): (r: Decoded)
    requires Valid(p)
    ensures Valid(r.next)
  {
    var q := if p.state != StringBody && p.state != Terminator then Capture(p, data) else p;
    match q.state
    case Escape => EscapeByte(q, data)
    case EscapeSequence => SequenceByte(q, data)
    case Csi => CsiByte(q, data)
    case StringBody => StringByte(q, data)
    case Terminator => TerminatorByte(q, data)
    case Normal => Decoded(q, NeedMore)
  }

  /** Decodes one byte. */
  function Decode(p: Parser, data: bv8): (r: Decoded)
    requires Valid(p)
    ensures Valid(r.next)
    // The decoder never touches the command queue.
    ensures r.next.cmds == p.cmds
    // Characters are exactly the data bytes of the state, returned as they
    // came, with the parser left as it was.
    ensures r.outcome.Char? <==> IsDataByte(p.state, data)
    ensures r.outcome.Char? ==> r.outcome.c == data && r.next == p
    // A sequence is ready exactly on a final byte of `Escape`,
    // `EscapeSequence` or `Csi`, and the parser is then back in `Normal`.
    ensures r.outcome.Ready? <==> IsFinal(p.state, data)
    ensures r.outcome.Ready? ==> r.next.state == Normal
    // Completing a sequence captures the final byte and changes nothing
    // but the state: a stale string flag and the string survive.
    ensures r.outcome.Ready? ==> r.next == Capture(p, data).(state := Normal)
  {
    if p.state == Normal then
      if data == ChEscape then Decoded(StartEscape(p), NeedMore)
      else if data == ChCsi then Decoded(StartCsi(p), NeedMore)
      else Decoded(p, Char(data))
    else if data < ChSpace || data == ChCsi then
      ControlByte(p, data)
    else
      SequencePart(p, data)
  }

  /** Feeds a run of bytes to the decoder, keeping only the final parser. */
  function DecodeAll(p: Parser, bs: seq<bv8>): (r: Parser)
    requires Valid(p)
    ensures Valid(r)
    ensures r.cmds == p.cmds
    decreases |bs|
  {
    if bs == [] then p else DecodeAll(Decode(p, bs[0]).next, bs[1..])
  }
}

=== FILE: parser_properties.dfy ===
/** Properties of the decoder, the backspace rule and the translator of
    source/ansi.c, each stated for all parsers and bytes. */
module AnsiParserProperties {
  import opened Ansi
  import opened AnsiParser

  // ---------------------------------------------------------------------
  // Single bytes

  /** In `Normal` every byte but ESC and 0x9B is handed back unchanged and
      the parser does not move. */
  lemma NormalPassThrough(p: Parser, data: bv8)
    requires Valid(p) && p.state == Normal
    ensures Decode(p, data).outcome.Char? <==> data != ChEscape && data != ChCsi
    ensures data != ChEscape && data != ChCsi ==> Decode(p, data) == Decoded(p, Char(data))
  {
  }

  /** ESC always asks for more input.  In a string body it is the start of
      a tentative terminator; in every other state, `Terminator` included,
      it starts a fresh escape sequence. */
  lemma EscapeNeedsMore(p: Parser)
    requires Valid(p)
    ensures var r := Decode(p, ChEscape);
      && r.outcome == NeedMore
      && (p.state == StringBody ==> r.next == p.(state := Terminator))
      && (p.state != StringBody ==>
            && r.next.state == Escape && r.next.escLast == 0 && r.next.esc[0] == ChEscape
            && r.next.esc[1..] == p.esc[1..]
            && r.next.str == p.str && r.next.receiving == p.receiving && r.next.cmds == p.cmds)
  {
  }

  /** The one-byte introducer 0x9B starts a control sequence from any
      state, recording 0x9B (not ESC) in slot 0. */
  lemma CsiByteStartsSequence(p: Parser)
    requires Valid(p)
    ensures var r := Decode(p, ChCsi);
      && r.outcome == NeedMore
      && r.next.state == Csi && r.next.escLast == 1
      && r.next.esc[0] == ChCsi && r.next.esc[1] == LeftBracket
      && r.next.esc[2..] == p.esc[2..]
      && r.next.str == p.str && r.next.receiving == p.receiving
  {
  }

  /** Control bytes outside `Normal`: CAN and SUB abort to `Normal` and
      empty the string, NUL is swallowed, backspace erases, and the other
      control bytes below 0x20 come back as characters. */
  lemma ControlBytes(p: Parser, data: bv8)
    requires Valid(p) && p.state != Normal && data < ChSpace
    ensures data == ChCancel || data == ChSubstitute ==>
      Decode(p, data) == Decoded(p.(state := Normal, str := [], receiving := false), NeedMore)
    ensures data == ChNul ==> Decode(p, data) == Decoded(p, NeedMore)
    ensures data == ChBackspace ==> Decode(p, data) == Decoded(Erase(p), NeedMore)
    ensures data !in {ChNul, ChBackspace, ChCancel, ChSubstitute, ChEscape} ==>
      Decode(p, data) == Decoded(p, Char(data))
  {
  }

  /** In `Escape`, `EscapeSequence` and `Csi` every byte of 0x20 and above
      (but 0x9B) is recorded at the next slot of the escape buffer, unless
      the index is already 64, in which case it is dropped. */
  lemma SequenceStatesCapture(p: Parser, data: bv8)
    requires Valid(p) && p.state in {Escape, EscapeSequence, Csi}
    requires data >= ChSpace && data != ChCsi
    ensures var r := Decode(p, data).next;
      && r.escLast == (if p.escLast < EscapeBufferSize then p.escLast + 1 else EscapeBufferSize)
      && r.esc == (if p.escLast < EscapeBufferSize then p.esc[p.escLast + 1 := data] else p.esc)
  {
  }

  /** In `Csi` a byte of 65..176 completes the sequence after being
      captured; any other byte of 0x20 and above (but 0x9B) is captured
      and, with the string flag clear, changes nothing else, while with the
      flag set it also goes to the string buffer.  At index 64 the capture
      drops the byte. */
  lemma CsiTransitions(p: Parser, data: bv8)
    requires Valid(p) && p.state == Csi
    requires ChSpace <= data && data != ChCsi
    ensures 65 <= data < 177 ==>
      Decode(p, data) == Decoded(Capture(p, data).(state := Normal), Ready)
    ensures (data < 65 || 177 <= data) && !p.receiving ==>
      Decode(p, data) == Decoded(Capture(p, data), NeedMore)
    ensures (data < 65 || 177 <= data) && p.receiving && |p.str| < StringBufferSize ==>
      Decode(p, data) == Decoded(Capture(p, data).(str := p.str + [data]), NeedMore)
    ensures (data < 65 || 177 <= data) && p.receiving && |p.str| == StringBufferSize ==>
      Decode(p, data) ==
        Decoded(Capture(p, data).(state := Normal, str := [], receiving := false), NeedMore)
  {
  }

  /** Right after ESC, '[' enters `Csi`, a string introducer enters the
      string body with an empty, receiving string, and every other byte
      that is not final (0x20..57, and 177 and above) enters
      `EscapeSequence`; each is captured first, which at index 64 drops
      the byte. */
  lemma EscapeTransitions(p: Parser, data: bv8)
    requires Valid(p) && p.state == Escape
    requires ChSpace <= data && data != ChCsi
    ensures data == LeftBracket ==>
      Decode(p, data) == Decoded(Capture(p, data).(state := Csi), NeedMore)
    ensures IsStringIntroducer(data) ==>
      Decode(p, data) ==
        Decoded(Capture(p, data).(state := StringBody, receiving := true, str := []), NeedMore)
    ensures data != LeftBracket && !IsStringIntroducer(data) && !IsFinal(Escape, data) ==>
      Decode(p, data) == Decoded(Capture(p, data).(state := EscapeSequence), NeedMore)
  {
  }

  /** In `EscapeSequence` and `Csi`, with the string flag clear, a byte of
      0x20 and above (but 0x9B) that does not complete the sequence is
      captured and changes nothing else: the fallthrough into the string
      body stores nothing. */
  lemma NonFinalByteCaptured(p: Parser, data: bv8)
    requires Valid(p) && p.state in {EscapeSequence, Csi} && !p.receiving
    requires ChSpace <= data && data != ChCsi && !IsFinal(p.state, data)
    ensures Decode(p, data) == Decoded(Capture(p, data), NeedMore)
  {
  }

  /** A completed sequence ends with its final byte, provided the escape
      buffer had room for it. */
  lemma ReadyEndsWithFinalByte(p: Parser, data: bv8)
    requires Valid(p) && p.escLast < EscapeBufferSize
    requires Decode(p, data).outcome.Ready?
    ensures var q := Decode(p, data).next;
      Captured(q) == Captured(p) + [data]
  {
    var q := Decode(p, data).next;
    assert q.esc == p.esc[p.escLast + 1 := data];
    assert Captured(q) == Captured(p) + [data];
  }

  /** The escape buffer can be written one slot past its declared 64: with
      the index at 63, the next byte of 0x20 or above (but 0x9B) moves the
      index to 64 and lands in slot 64, which the 64-byte array does not
      have. */
  lemma WriteAtSlot64(p: Parser, data: bv8)
    requires Valid(p) && p.state in {Escape, EscapeSequence, Csi} && p.escLast == 63
    requires data >= ChSpace && data != ChCsi
    ensures var r := Decode(p, data).next;
      r.escLast == EscapeBufferSize && r.esc[EscapeBufferSize] == data
  {
  }

  /** Apart from ESC and 0x9B, which start a new sequence, bytes in the
      string states never touch the escape buffer and never complete a
      sequence. */
  lemma StringStatesKeepEscapeBuffer(p: Parser, data: bv8)
    requires Valid(p) && p.state in {StringBody, Terminator}
    requires data != ChEscape && data != ChCsi
    ensures var r := Decode(p, data);
      r.next.esc == p.esc && r.next.escLast == p.escLast && !r.outcome.Ready?
  {
  }

  /** A string body with the flag set records payload bytes while fewer
      than 128 are stored; a byte arriving at 128 aborts the string. */
  lemma StringPayload(p: Parser, data: bv8)
    requires Valid(p) && p.state == StringBody && p.receiving
    requires data >= ChSpace && data != ChCsi && data != ChSt
    ensures |p.str| < StringBufferSize ==>
      Decode(p, data) == Decoded(p.(str := p.str + [data]), NeedMore)
    ensures |p.str| == StringBufferSize ==>
      Decode(p, data) == Decoded(p.(state := Normal, str := [], receiving := false), NeedMore)
  {
  }

  /** ST (0x9C) ends a string body. */
  lemma StringTerminatorByte(p: Parser)
    requires Valid(p) && p.state == StringBody
    ensures Decode(p, ChSt) == Decoded(p.(state := Normal, receiving := false), NeedMore)
  {
  }

  /** After the ESC of a tentative terminator, '\' ends the string; any
      other byte of 0x20 and above returns to the string body, and the ESC
      and the byte are appended only while two bytes still fit, whatever
      the string flag says. */
  lemma TerminatorRecovery(p: Parser, data: bv8)
    requires Valid(p) && p.state == Terminator
    requires data >= ChSpace && data != ChCsi
    ensures data == Backslash ==>
      Decode(p, data) == Decoded(p.(state := Normal, receiving := false), NeedMore)
    ensures data != Backslash ==>
      Decode(p, data) == Decoded(
        p.(state := StringBody,
           str := if |p.str| + 1 < StringBufferSize then p.str + [ChEscape, data] else p.str),
        NeedMore)
  {
  }

  /** With the string flag left set (erasing out of a string body does not
      clear it), bytes that do not complete a `Csi` or `EscapeSequence`
      fall through to the string-body handling: after being captured they
      are appended to the string buffer, or, with 128 bytes already
      stored, abort to `Normal` with the string emptied and the flag
      cleared. */
  lemma StaleFlagAppends(p: Parser, data: bv8)
    requires Valid(p) && p.state in {EscapeSequence, Csi} && p.receiving
    requires data >= ChSpace && data != ChCsi && !IsFinal(p.state, data)
    ensures Decode(p, data).outcome == NeedMore
    ensures |p.str| < StringBufferSize ==>
      Decode(p, data) == Decoded(Capture(p, data).(str := p.str + [data]), NeedMore)
    ensures |p.str| == StringBufferSize ==>
      Decode(p, data) ==
        Decoded(Capture(p, data).(state := Normal, str := [], receiving := false), NeedMore)
  {
  }

  // ---------------------------------------------------------------------
  // Backspace undoes a step

  /** Backspace removes the payload byte a string body just recorded. */
  lemma EraseUndoesStringByte(p: Parser, data: bv8)
    requires Valid(p) && p.state == StringBody && p.receiving && |p.str| < StringBufferSize
    requires data >= ChSpace && data != ChCsi && data != ChSt
    ensures Erase(Decode(p, data).next) == p
  {
  }

  /** Backspace undoes a byte that moved a fresh escape sequence to `Csi` or
      `EscapeSequence`, or that extended one of those without completing
      it; only the dropped slot of the escape buffer keeps the byte. */
  lemma EraseUndoesSequenceByte(p: Parser, data: bv8)
    requires Valid(p) && p.escLast < EscapeBufferSize
    requires (p.state == Escape && p.escLast == 0)
          || (p.state in {EscapeSequence, Csi} && p.escLast >= 1 && !p.receiving)
    requires data >= ChSpace && data != ChCsi
    requires Decode(p, data).outcome == NeedMore && Decode(p, data).next.state != StringBody
    ensures var q := Erase(Decode(p, data).next);
      q.(esc := p.esc) == p && Captured(q) == Captured(p)
  {
  }

  /** In `Csi` and `EscapeSequence` backspace, whatever the string flag
      says, returns to `Escape` at index 1 and otherwise only lowers a
      positive index by one; the string buffer is never touched. */
  lemma EraseInsideSequence(p: Parser)
    requires Valid(p) && p.state in {EscapeSequence, Csi}
    ensures p.escLast == 1 ==> Erase(p) == p.(state := Escape, escLast := 0)
    ensures p.escLast >= 2 ==> Erase(p) == p.(escLast := p.escLast - 1)
    ensures p.escLast == 0 ==> Erase(p) == p
  {
  }

  /** Backspace after the ESC of a tentative terminator returns to the
      string body, whatever the sequence index. */
  lemma EraseUndoesTerminatorEscape(p: Parser)
    requires Valid(p) && p.state == StringBody
    ensures Erase(Decode(p, ChEscape).next) == p
  {
  }

  /** In `Terminator` backspace always returns to the string body and
      changes nothing else. */
  lemma EraseInTerminator(p: Parser)
    requires Valid(p) && p.state == Terminator
    ensures Erase(p) == p.(state := StringBody)
  {
  }

  /** In a string body backspace pops the last stored byte, whether or not
      the string flag is set. */
  lemma EraseDropsLastStringByte(p: Parser, data: bv8)
    requires Valid(p) && p.state == StringBody && |p.str| < StringBufferSize
    ensures Erase(p.(str := p.str + [data])) == p
  {
  }

  /** In a string body with nothing stored, backspace goes back to `Escape`
      and touches nothing else, the string flag included. */
  lemma EraseLeavesEmptyString(p: Parser)
    requires Valid(p) && p.state == StringBody && p.str == []
    ensures Erase(p) == p.(state := Escape)
  {
  }

  /** In `Escape` with a non-zero index (reached by erasing out of a string
      body), backspace only lowers the index; only index 0 leaves for
      `Normal`. */
  lemma EraseInsideEscape(p: Parser)
    requires Valid(p) && p.state == Escape
    ensures p.escLast > 0 ==> Erase(p) == p.(escLast := p.escLast - 1)
    ensures p.escLast == 0 ==> Erase(p) == p.(state := Normal)
  {
  }

  // ---------------------------------------------------------------------
  // Backspace always leads back to `Normal`

  /** Bounds plus the fact that `Csi` and `EscapeSequence` always hold at
      least one byte after slot 0. */
  predicate Coherent(p: Parser)
  {
    Valid(p) && (p.state in {EscapeSequence, Csi} ==> p.escLast >= 1)
  }

  /** Number of backspaces that certainly bring a parser back to `Normal`. */
  function RollbackDistance(p: Parser): nat
    requires Valid(p)
  {
    Depth(p.state) + p.escLast + |p.str|
  }

  lemma ResetIsCoherent(p: Parser)
    ensures Coherent(Reset(p))
  {
  }

  lemma DecodeKeepsCoherent(p: Parser, data: bv8)
    requires Coherent(p)
    ensures Coherent(Decode(p, data).next)
  {
  }

  /** Outside `Normal`, each erasure strictly shortens the way back. */
  lemma EraseProgress(p: Parser)
    requires Coherent(p) && p.state != Normal
    ensures Coherent(Erase(p))
    ensures RollbackDistance(Erase(p)) < RollbackDistance(p)
  {
  }

  /** Enough backspaces return any coherent parser to `Normal`. */
  lemma {:induction false} BackspacesReachNormal(p: Parser, n: nat)
    requires Coherent(p) && n >= RollbackDistance(p)
    ensures DecodeAll(p, Repeat(ChBackspace, n)).state == Normal
    decreases n
  {
    var bs := Repeat(ChBackspace, n);
    if p.state == Normal {
      NormalStaysUnderBackspace(p, n);
    } else {
      assert n > 0;
      EraseProgress(p);
      var q := Decode(p, ChBackspace).next;
      assert q == Erase(p);
      assert bs[1..] == Repeat(ChBackspace, n - 1);
      BackspacesReachNormal(q, n - 1);
    }
  }

  lemma {:induction false} NormalStaysUnderBackspace(p: Parser, n: nat)
    requires Valid(p) && p.state == Normal
    ensures DecodeAll(p, Repeat(ChBackspace, n)) == p
    decreases n
  {
    if n > 0 {
      assert Repeat(ChBackspace, n)[1..] == Repeat(ChBackspace, n - 1);
      NormalStaysUnderBackspace(p, n - 1);
    }
  }

  // ---------------------------------------------------------------------
  // Translator

  /** Only `ESC [ x` and `ESC [ x y` sequences can be translated; a full
      queue rejects before anything else, and otherwise exactly one command
      is appended with the earlier ones kept. */
  lemma TranslatorFilter(p: Parser)
    requires Valid(p) && |p.cmds| < CommandStackSize
    ensures var r := ProcessEscape(p);
      r.result.Queued? ==>
        && p.escLast in {2, 3} && p.esc[0] == ChEscape && p.esc[1] == LeftBracket
        && |r.parser.cmds| == |p.cmds| + 1 && r.parser.cmds[..|p.cmds|] == p.cmds
  {
    var r := ProcessEscape(p);
    if r.result.Queued? {
      assert SequenceCommand(Captured(p)).Some?;
      assert Captured(p)[0] == p.esc[0] && Captured(p)[1] == p.esc[1];
      assert r.parser.cmds[..|p.cmds|] == p.cmds;
    }
  }

  /** The six recognised sequences. */
  lemma TranslatorMapping(p: Parser)
    requires Valid(p) && |p.cmds| < CommandStackSize
    requires p.escLast >= 2 && p.esc[0] == ChEscape && p.esc[1] == LeftBracket
    ensures p.escLast == 2 && p.esc[2] == KeyUp ==> ProcessEscape(p).result == Queued(Up)
    ensures p.escLast == 2 && p.esc[2] == KeyDown ==> ProcessEscape(p).result == Queued(Down)
    ensures p.escLast == 2 && p.esc[2] == KeyRight ==> ProcessEscape(p).result == Queued(Right)
    ensures p.escLast == 2 && p.esc[2] == KeyLeft ==> ProcessEscape(p).result == Queued(Left)
    ensures p.escLast == 3 && p.esc[2] == KeyPgUp && p.esc[3] == Tilde ==>
      ProcessEscape(p).result == Queued(PgUp)
    ensures p.escLast == 3 && p.esc[2] == KeyPgDown && p.esc[3] == Tilde ==>
      ProcessEscape(p).result == Queued(PgDown)
    ensures p.escLast == 3 && p.esc[3] != Tilde ==> ProcessEscape(p).result == Queued(Up)
    ensures p.escLast == 2 && CursorCommand(p.esc[2]).Some? ==>
      ProcessEscape(p).parser.cmds == p.cmds + [CursorCommand(p.esc[2]).value]
    ensures p.escLast == 2 && CursorCommand(p.esc[2]).None? ==>
      ProcessEscape(p).result == Filtered && ProcessEscape(p).parser.cmds == p.cmds
  {
  }

  /** A sequence started by the one-byte introducer 0x9B keeps 0x9B in
      slot 0 and is therefore never translated. */
  lemma CsiIntroducedFiltered(p: Parser)
    requires Valid(p) && p.esc[0] == ChCsi
    ensures !ProcessEscape(p).result.Queued?
  {
  }
}

=== FILE: scenarios.dfy ===
/** Byte streams fed to a freshly opened server, and what they lead to.
    The server may hold anything before `Open`. */
module Scenarios {
  import opened Ansi
  import opened AnsiParser
  import opened AnsiParserProperties
  import opened SerialServer
  import opened SerialServerProperties

  /** Processing `b` and then `rest`. */
  lemma ProcessAllCons(s: Server, b: bv8, rest: seq<bv8>)
    requires ValidServer(s)
    ensures var first := Process(s, b);
      var r := ProcessAll(first.server, rest);
      ProcessAll(s, [b] + rest) == Step(r.server, first.events + r.events)
  {
    assert ([b] + rest)[0] == b;
    assert ([b] + rest)[1..] == rest;
  }

  /** Processing a concatenation is processing its parts in turn: both
      sides deliver the same expansion. */
  lemma ProcessAllAppend(s: Server, a: seq<bv8>, b: seq<bv8>)
    requires ValidServer(s)
    ensures var ra := ProcessAll(s, a);
      var rb := ProcessAll(ra.server, b);
      ProcessAll(s, a + b) == Step(rb.server, ra.events + rb.events)
  {
    var ra := ProcessAll(s, a);
    StreamExpansion(s, a + b);
    StreamExpansion(s, a);
    StreamExpansion(ra.server, b);
    ExpandAllAppend(a, b);
    DeliverAllAppend(s, ExpandAll(a), ExpandAll(b));
  }

  /** A byte that is not a C1 control and only needs more input makes no
      call; the rest of the stream continues from the decoder's state. */
  lemma Advance(s: Server, b: bv8, p: Parser, rest: seq<bv8>)
    requires ValidServer(s) && !IsC1(b) && Decode(s.parser, b) == Decoded(p, NeedMore)
    ensures ProcessAll(s, [b] + rest) == ProcessAll(s.(parser := p), rest)
  {
    ProcessAllCons(s, b, rest);
  }

  /** A last byte that is not a C1 control and completes a sequence is
      translated at once. */
  lemma Finish(s: Server, b: bv8, p: Parser)
    requires ValidServer(s) && !IsC1(b) && Decode(s.parser, b) == Decoded(p, Ready)
    ensures ProcessAll(s, [b]) == Step(s.(parser := ProcessEscape(p).parser), [])
  {
    ProcessAllCons(s, b, []);
    assert [b] + [] == [b];
  }

  /** ESC then '[' from `Normal`: a control sequence with `ESC [` in the
      first two slots. */
  lemma EscapeBracket(s: Server, rest: seq<bv8>)
    requires ValidServer(s) && s.parser.state == Normal
    ensures ProcessAll(s, [ChEscape, LeftBracket] + rest) ==
      ProcessAll(s.(parser := Capture(StartEscape(s.parser), LeftBracket).(state := Csi)), rest)
  {
    var p1 := StartEscape(s.parser);
    assert [ChEscape, LeftBracket] + rest == [ChEscape] + ([LeftBracket] + rest);
    Advance(s, ChEscape, p1, [LeftBracket] + rest);
    EscapeTransitions(p1, LeftBracket);
    Advance(s.(parser := p1), LeftBracket, Capture(p1, LeftBracket).(state := Csi), rest);
  }

  /** The parser after `ESC [` from a reset parser. */
  function AfterEscapeBracket(p: Parser): (r: Parser)
    requires Valid(p)
    ensures Valid(r)
  {
    Capture(StartEscape(p), LeftBracket).(state := Csi)
  }

  /** `ESC [ x` for x in A..D queues Up, Down, Right or Left; the next
      cycle delivers it and then idles. */
  lemma CursorKeys(s: Server, key: bv8)
    requires key in {KeyUp, KeyDown, KeyRight, KeyLeft}
    ensures var o := Open(s, true);
      var r := ProcessAll(o, [ChEscape, LeftBracket, key]);
      && r.events == []
      && r.server.parser.state == Normal
      && r.server.parser.cmds == [CursorCommand(key).value]
      && Run(r.server).events == [Command(Code(CursorCommand(key).value)), Idle]
  {
    var o := Open(s, true);
    var p2 := AfterEscapeBracket(o.parser);
    var p3 := Capture(p2, key).(state := Normal);
    assert ProcessAll(o, [ChEscape, LeftBracket, key]) == Step(o.(parser := ProcessEscape(p3).parser), []) by {
      assert [ChEscape, LeftBracket, key] == [ChEscape, LeftBracket] + [key];
      EscapeBracket(o, [key]);
      CsiTransitions(p2, key);
      Finish(o.(parser := p2), key, p3);
    }
    var c := CursorCommand(key).value;
    assert ProcessEscape(p3).parser.cmds == [c] by {
      assert p2.escLast == 1 && p3.escLast == 2 && p3.cmds == [];
      assert p3.esc[0] == ChEscape && p3.esc[1] == LeftBracket && p3.esc[2] == key;
      TranslatorMapping(p3);
    }
    var r := o.(parser := ProcessEscape(p3).parser);
    assert Run(r).events == [Command(Code(c)), Idle] by {
      assert r.hasCallback && |r.parser.cmds| == 1;
    }
  }

  /** `ESC [ 5 ~` queues PgUp and `ESC [ 6 ~` queues PgDown. */
  lemma PageKeys(s: Server, key: bv8)
    requires key in {KeyPgUp, KeyPgDown}
    ensures var o := Open(s, true);
      var r := ProcessAll(o, [ChEscape, LeftBracket, key, Tilde]);
      r.events == [] && r.server.parser.cmds == [PageCommand(key).value]
  {
    var o := Open(s, true);
    var p2 := AfterEscapeBracket(o.parser);
    var p3 := Capture(p2, key);
    var p4 := Capture(p3, Tilde).(state := Normal);
    assert ProcessAll(o, [ChEscape, LeftBracket, key, Tilde]) == Step(o.(parser := ProcessEscape(p4).parser), []) by {
      assert [ChEscape, LeftBracket, key, Tilde] == [ChEscape, LeftBracket] + ([key] + [Tilde]);
      EscapeBracket(o, [key] + [Tilde]);
      CsiTransitions(p2, key);
      Advance(o.(parser := p2), key, p3, [Tilde]);
      CsiTransitions(p3, Tilde);
      Finish(o.(parser := p3), Tilde, p4);
    }
    assert ProcessEscape(p4).parser.cmds == [PageCommand(key).value] by {
      assert p4.escLast == 3 && p4.esc[0] == ChEscape && p4.esc[1] == LeftBracket;
      assert p4.esc[2] == key && p4.esc[3] == Tilde;
      TranslatorMapping(p4);
    }
  }

  /** `ESC [ 5 A`: a four-byte sequence without '~' still queues Up. */
  lemma FourByteWithoutTildeIsUp(s: Server)
    ensures var o := Open(s, true);
      ProcessAll(o, [ChEscape, LeftBracket, KeyPgUp, KeyUp]).server.parser.cmds == [Up]
  {
    var o := Open(s, true);
    var p2 := AfterEscapeBracket(o.parser);
    var p3 := Capture(p2, KeyPgUp);
    var p4 := Capture(p3, KeyUp).(state := Normal);
    assert ProcessAll(o, [ChEscape, LeftBracket, KeyPgUp, KeyUp]) == Step(o.(parser := ProcessEscape(p4).parser), []) by {
      assert [ChEscape, LeftBracket, KeyPgUp, KeyUp] == [ChEscape, LeftBracket] + ([KeyPgUp] + [KeyUp]);
      EscapeBracket(o, [KeyPgUp] + [KeyUp]);
      CsiTransitions(p2, KeyPgUp);
      Advance(o.(parser := p2), KeyPgUp, p3, [KeyUp]);
      CsiTransitions(p3, KeyUp);
      Finish(o.(parser := p3), KeyUp, p4);
    }
    assert ProcessEscape(p4).parser.cmds == [Up] by {
      assert p4.escLast == 3 && p4.esc[0] == ChEscape && p4.esc[1] == LeftBracket;
      assert p4.esc[3] == KeyUp;
      TranslatorMapping(p4);
    }
  }

  /** `ESC [ Z` completes a sequence that maps to no command. */
  lemma UnmappedFinalFiltered(s: Server)
    ensures var o := Open(s, true);
      var r := ProcessAll(o, [ChEscape, LeftBracket, 0x5A]);
      r.server.parser.state == Normal && r.server.parser.cmds == [] && r.events == []
  {
    var o := Open(s, true);
    var p2 := AfterEscapeBracket(o.parser);
    var p3 := Capture(p2, 0x5A).(state := Normal);
    assert ProcessAll(o, [ChEscape, LeftBracket, 0x5A]) == Step(o.(parser := ProcessEscape(p3).parser), []) by {
      assert [ChEscape, LeftBracket, 0x5A] == [ChEscape, LeftBracket] + [0x5A];
      EscapeBracket(o, [0x5A]);
      CsiTransitions(p2, 0x5A);
      Finish(o.(parser := p2), 0x5A, p3);
    }
    assert ProcessEscape(p3).parser.cmds == [] by {
      assert p2.escLast == 1 && p3.escLast == 2 && p3.cmds == [];
      assert p3.esc[0] == ChEscape && p3.esc[1] == LeftBracket && p3.esc[2] == 0x5A;
      TranslatorMapping(p3);
    }
  }

  /** 0x9B 'A', the one-byte form of `ESC [ A`, queues nothing. */
  lemma EightBitCsiFiltered(s: Server)
    ensures var o := Open(s, true);
      var r := ProcessAll(o, [ChCsi, KeyUp]);
      r.server.parser.state == Normal && r.server.parser.cmds == []
  {
    var o := Open(s, true);
    var p1 := StartCsi(o.parser);
    var p2 := Capture(p1, KeyUp).(state := Normal);
    assert ProcessAll(o, [ChCsi, KeyUp]) == Step(o.(parser := ProcessEscape(p2).parser), []) by {
      assert [ChCsi, KeyUp] == [ChCsi] + [KeyUp];
      assert Decode(o.parser, ChCsi) == Decoded(p1, NeedMore);
      Advance(o, ChCsi, p1, [KeyUp]);
      CsiTransitions(p1, KeyUp);
      Finish(o.(parser := p1), KeyUp, p2);
    }
    CsiIntroducedFiltered(p2);
  }

  /** Backspace right after ESC abandons the sequence. */
  lemma BackspaceAfterEscape(s: Server)
    ensures var o := Open(s, true);
      var r := ProcessAll(o, [ChEscape, ChBackspace]);
      r.server.parser.state == Normal && r.events == [] && r.server.parser.cmds == []
  {
    var o := Open(s, true);
    var p1 := StartEscape(o.parser);
    assert [ChEscape, ChBackspace] == [ChEscape] + ([ChBackspace] + []);
    assert Decode(o.parser, ChEscape) == Decoded(p1, NeedMore);
    Advance(o, ChEscape, p1, [ChBackspace]);
    assert Decode(p1, ChBackspace) == Decoded(p1.(state := Normal), NeedMore);
    Advance(o.(parser := p1), ChBackspace, p1.(state := Normal), []);
  }

  /** With 32 commands queued a cursor sequence is lost; after a cycle the
      same sequence is queued again. */
  lemma QueueFullThenDrain(s: Server)
    requires ValidServer(s) && s.parser.state == Normal
    requires |s.parser.cmds| == CommandStackSize
    ensures var full := ProcessAll(s, [ChEscape, LeftBracket, KeyUp]).server;
      && full.parser.cmds == s.parser.cmds
      && ProcessAll(Run(full).server, [ChEscape, LeftBracket, KeyUp]).server.parser.cmds == [Up]
  {
    assert [ChEscape, LeftBracket, KeyUp] == [ChEscape, LeftBracket] + [KeyUp];
    var p2 := AfterEscapeBracket(s.parser);
    var p3 := Capture(p2, KeyUp).(state := Normal);
    var full := s.(parser := ProcessEscape(p3).parser);
    assert ProcessAll(s, [ChEscape, LeftBracket, KeyUp]).server == full by {
      EscapeBracket(s, [KeyUp]);
      CsiTransitions(p2, KeyUp);
      Finish(s.(parser := p2), KeyUp, p3);
    }
    assert full.parser.cmds == s.parser.cmds;
    var d := Run(full).server;
    assert d.parser.state == Normal && ValidServer(d);
    var q2 := AfterEscapeBracket(d.parser);
    var q3 := Capture(q2, KeyUp).(state := Normal);
    assert ProcessAll(d, [ChEscape, LeftBracket, KeyUp]).server == d.(parser := ProcessEscape(q3).parser) by {
      EscapeBracket(d, [KeyUp]);
      CsiTransitions(q2, KeyUp);
      Finish(d.(parser := q2), KeyUp, q3);
    }
    assert ProcessEscape(q3).parser.cmds == [Up] by {
      assert q2.escLast == 1 && q3.escLast == 2 && q3.cmds == [];
      assert q3.esc[0] == ChEscape && q3.esc[1] == LeftBracket && q3.esc[2] == KeyUp;
      TranslatorMapping(q3);
    }
  }

  // ---------------------------------------------------------------------
  // Filling the string buffer

  /** A string body with the flag set stores each payload byte. */
  lemma {:induction false} StringFill(s: Server, b: bv8, n: nat)
    requires ValidServer(s) && s.parser.state == StringBody && s.parser.receiving
    requires |s.parser.str| + n <= StringBufferSize
    requires b >= ChSpace && !IsC1(b) && b != ChCsi
    ensures ProcessAll(s, Repeat(b, n)) ==
      Step(s.(parser := s.parser.(str := s.parser.str + Repeat(b, n))), [])
    decreases n
  {
    if n == 0 {
      assert s.parser.str + Repeat(b, 0) == s.parser.str;
    } else {
      assert Repeat(b, n) == [b] + Repeat(b, n - 1);
      ProcessAllCons(s, b, Repeat(b, n - 1));
      var s1 := Process(s, b).server;
      assert s1 == s.(parser := s.parser.(str := s.parser.str + [b]));
      StringFill(s1, b, n - 1);
      assert s.parser.str + [b] + Repeat(b, n - 1) == s.parser.str + Repeat(b, n);
    }
  }

  /** `ESC _` then 128 payload bytes fill the string buffer; the 129th
      payload byte aborts the string. */
  lemma StringOverflowOn129thByte(s: Server, b: bv8)
    requires b >= ChSpace && !IsC1(b) && b != ChCsi
    ensures var o := Open(s, true);
      var full := ProcessAll(o, [ChEscape, 0x5F] + Repeat(b, StringBufferSize)).server;
      && full.parser.state == StringBody && full.parser.receiving
      && |full.parser.str| == StringBufferSize
      && var after := Process(full, b).server;
         after.parser.state == Normal && after.parser.str == [] && !after.parser.receiving
  {
    var o := Open(s, true);
    var p1 := StartEscape(o.parser);
    var p2 := Capture(p1, 0x5F).(state := StringBody, receiving := true, str := []);
    var bs := Repeat(b, StringBufferSize);
    assert ProcessAll(o, [ChEscape, 0x5F] + bs) == ProcessAll(o.(parser := p2), bs) by {
      assert [ChEscape, 0x5F] + bs == [ChEscape] + ([0x5F] + bs);
      assert Decode(o.parser, ChEscape) == Decoded(p1, NeedMore);
      Advance(o, ChEscape, p1, [0x5F] + bs);
      EscapeTransitions(p1, 0x5F);
      Advance(o.(parser := p1), 0x5F, p2, bs);
    }
    var s2 := o.(parser := p2);
    StringFill(s2, b, StringBufferSize);
    assert p2.str + bs == bs;
    var full := s2.(parser := p2.(str := bs));
    var aborted := full.parser.(state := Normal, str := [], receiving := false);
    assert Process(full, b).server.parser == aborted by {
      assert !IsC1(b);
      StringPayload(full.parser, b);
      assert Decode(full.parser, b) == Decoded(aborted, NeedMore);
    }
  }

  // ---------------------------------------------------------------------
  // Filling the escape buffer

  /** `q` is `p` with the `n` escape slots after its last one set to `b`. */
  predicate Filled(p: Parser, q: Parser, b: bv8, n: nat)
    requires Valid(p) && Valid(q)
  {
    && q.state == p.state && q.receiving == p.receiving
    && q.escLast == p.escLast + n
    && q.esc[..p.escLast + 1] == p.esc[..p.escLast + 1]
    && (forall i :: p.escLast < i <= p.escLast + n ==> q.esc[i] == b)
    && q.str == p.str && q.cmds == p.cmds
  }

  /** Capturing `b` and then filling `n - 1` more slots fills `n`. */
  lemma FilledStep(p: Parser, q: Parser, b: bv8, n: nat)
    requires Valid(p) && Valid(q) && p.escLast < EscapeBufferSize && n >= 1
    requires Filled(Capture(p, b), q, b, n - 1)
    ensures Filled(p, q, b, n)
  {
    var k := p.escLast;
    var p1 := Capture(p, b);
    assert p1.esc == p.esc[k + 1 := b] && p1.escLast == k + 1;
    assert q.esc[k + 1] == b by {
      assert q.esc[..k + 2][k + 1] == p1.esc[..k + 2][k + 1];
    }
    assert q.esc[..k + 1] == p.esc[..k + 1] by {
      assert q.esc[..k + 1] == q.esc[..k + 2][..k + 1];
      assert p1.esc[..k + 1] == p.esc[..k + 1];
    }
    forall i | k < i <= k + n
      ensures q.esc[i] == b
    {
      if i > k + 1 {
        assert k + 1 < i <= k + 1 + (n - 1);
      }
    }
  }

  /** Bytes 0x20..57 ('0'..'9' among them) extend an escape sequence
      without completing it, up to the 64th slot index. */
  lemma {:induction false} EscapeFill(s: Server, b: bv8, n: nat)
    requires ValidServer(s) && s.parser.state == EscapeSequence && !s.parser.receiving
    requires s.parser.escLast + n <= EscapeBufferSize
    requires ChSpace <= b <= 57
    ensures var r := ProcessAll(s, Repeat(b, n));
      r.events == [] && Filled(s.parser, r.server.parser, b, n)
    decreases n
  {
    if n == 0 {
      assert ProcessAll(s, Repeat(b, 0)) == Step(s, []);
    } else {
      var p1 := Capture(s.parser, b);
      var r := ProcessAll(s.(parser := p1), Repeat(b, n - 1));
      assert ProcessAll(s, Repeat(b, n)) == r by {
        assert Repeat(b, n) == [b] + Repeat(b, n - 1);
        NonFinalByteCaptured(s.parser, b);
        Advance(s, b, p1, Repeat(b, n - 1));
      }
      EscapeFill(s.(parser := p1), b, n - 1);
      FilledStep(s.parser, r.server.parser, b, n);
    }
  }

  /** `ESC` followed by 64 bytes '0' writes slot 64 of the 64-byte escape
      buffer: the index check lets one write past the end through. */
  lemma EscapeBufferSlot64Written(s: Server)
    ensures var o := Open(s, true);
      var r := ProcessAll(o, [ChEscape] + Repeat(0x30, EscapeBufferSize)).server;
      && r.parser.escLast == EscapeBufferSize
      && r.parser.esc[EscapeBufferSize] == 0x30
  {
    var o := Open(s, true);
    var p1 := StartEscape(o.parser);
    var p2 := Capture(p1, 0x30).(state := EscapeSequence);
    assert ProcessAll(o, [ChEscape] + Repeat(0x30, EscapeBufferSize))
        == ProcessAll(o.(parser := p2), Repeat(0x30, EscapeBufferSize - 1)) by {
      assert Decode(o.parser, ChEscape) == Decoded(p1, NeedMore);
      Advance(o, ChEscape, p1, Repeat(0x30, EscapeBufferSize));
      assert Repeat(0x30, EscapeBufferSize) == [0x30] + Repeat(0x30, EscapeBufferSize - 1);
      EscapeTransitions(p1, 0x30);
      Advance(o.(parser := p1), 0x30, p2, Repeat(0x30, EscapeBufferSize - 1));
    }
    EscapeFill(o.(parser := p2), 0x30, EscapeBufferSize - 1);
  }

  /** Erasing out of a string body leaves the string flag set, so the
      parameter byte of a following `ESC [` lands in the string buffer:
      `ESC _ BS [ 0` leaves '0' as string payload. */
  lemma StaleFlagAfterErase(s: Server)
    ensures var o := Open(s, true);
      var r := ProcessAll(o, [ChEscape, 0x5F, ChBackspace, LeftBracket, 0x30]).server;
      r.parser.state == Csi && r.parser.receiving && r.parser.str == [0x30]
  {
    var o := Open(s, true);
    var p1 := StartEscape(o.parser);
    var p2 := Capture(p1, 0x5F).(state := StringBody, receiving := true, str := []);
    var p3 := p2.(state := Escape);
    var p4 := Capture(p3, LeftBracket).(state := Csi);
    var p5 := Capture(p4, 0x30).(str := [0x30]);
    assert [ChEscape, 0x5F, ChBackspace, LeftBracket, 0x30]
        == [ChEscape] + ([0x5F] + ([ChBackspace] + ([LeftBracket] + ([0x30] + []))));
    assert Decode(o.parser, ChEscape) == Decoded(p1, NeedMore);
    Advance(o, ChEscape, p1, [0x5F] + ([ChBackspace] + ([LeftBracket] + ([0x30] + []))));
    EscapeTransitions(p1, 0x5F);
    Advance(o.(parser := p1), 0x5F, p2, [ChBackspace] + ([LeftBracket] + ([0x30] + [])));
    assert Decode(p2, ChBackspace) == Decoded(p3, NeedMore);
    Advance(o.(parser := p2), ChBackspace, p3, [LeftBracket] + ([0x30] + []));
    EscapeTransitions(p3, LeftBracket);
    Advance(o.(parser := p3), LeftBracket, p4, [0x30] + []);
    CsiTransitions(p4, 0x30);
    Advance(o.(parser := p4), 0x30, p5, []);
  }
}

=== FILE: serial_properties.dfy ===
/** Properties of the serial dispatcher: C1 expansion, command delivery
    and the per-cycle drain. */
module SerialServerProperties {
  import opened Ansi
  import opened AnsiParser
  import opened AnsiParserProperties
  import opened SerialServer

  /** ESC, the first logical byte of a C1 control, never yields a
      character nor a completed sequence: it makes no callback call and
      no translation. */
  lemma C1FirstHalfSilent(s: Server)
    requires ValidServer(s)
    ensures Deliver(s, ChEscape).events == []
    ensures Deliver(s, ChEscape).server.parser.cmds == s.parser.cmds
  {
  }

  /** A raw byte is processed exactly as the logical bytes it expands to:
      a C1 control as ESC followed by its 7-bit equivalent, any other
      byte (0x9B included) as itself. */
  lemma C1Expansion(s: Server, b: bv8)
    requires ValidServer(s)
    ensures Process(s, b) == DeliverAll(s, Expand(b))
  {
    var e := Expand(b);
    if IsC1(b) {
      var first := Deliver(s, ChEscape);
      var second := Deliver(first.server, e[1]);
      assert (b & 0x7F) | 0x40 == e[1];
      assert e[1..] == [e[1]] && e[1..][1..] == [];
      assert DeliverAll(second.server, []) == Step(second.server, []);
      assert DeliverAll(first.server, e[1..]) == Step(second.server, second.events);
    } else {
      assert e[1..] == [];
    }
  }

  /** Delivering a stream that starts with `x` is handling `x`, then the rest. */
  lemma DeliverAllCons(s: Server, x: bv8, bs: seq<bv8>)
    requires ValidServer(s)
    ensures var first := Deliver(s, x);
      var rest := DeliverAll(first.server, bs);
      DeliverAll(s, [x] + bs) == Step(rest.server, first.events + rest.events)
  {
    assert ([x] + bs)[0] == x;
    assert ([x] + bs)[1..] == bs;
  }

  /** Delivering a concatenation is delivering its parts in turn. */
  lemma {:induction false} DeliverAllAppend(s: Server, a: seq<bv8>, b: seq<bv8>)
    requires ValidServer(s)
    ensures var ra := DeliverAll(s, a);
      var rb := DeliverAll(ra.server, b);
      DeliverAll(s, a + b) == Step(rb.server, ra.events + rb.events)
    decreases |a|
  {
    if a == [] {
      assert a + b == b;
    } else {
      var x, tail := a[0], a[1..];
      var first := Deliver(s, x);
      var ra := DeliverAll(first.server, tail);
      var rb := DeliverAll(ra.server, b);
      assert a == [x] + tail;
      assert a + b == [x] + (tail + b);
      DeliverAllCons(s, x, tail);
      DeliverAllCons(s, x, tail + b);
      DeliverAllAppend(first.server, tail, b);
      assert first.events + (ra.events + rb.events) == (first.events + ra.events) + rb.events;
    }
  }

  /** Expanding a concatenation is expanding its parts in turn. */
  lemma {:induction false} ExpandAllAppend(a: seq<bv8>, b: seq<bv8>)
    ensures ExpandAll(a + b) == ExpandAll(a) + ExpandAll(b)
    decreases |a|
  {
    if a == [] {
      assert a + b == b;
    } else {
      assert (a + b)[0] == a[0];
      assert (a + b)[1..] == a[1..] + b;
      ExpandAllAppend(a[1..], b);
      assert Expand(a[0]) + (ExpandAll(a[1..]) + ExpandAll(b))
          == (Expand(a[0]) + ExpandAll(a[1..])) + ExpandAll(b);
    }
  }

  /** A whole raw stream is processed exactly as its expansion, byte by
      byte, through the decoder. */
  lemma {:induction false} StreamExpansion(s: Server, bs: seq<bv8>)
    requires ValidServer(s)
    ensures ProcessAll(s, bs) == DeliverAll(s, ExpandAll(bs))
    decreases |bs|
  {
    if bs != [] {
      var first := Process(s, bs[0]);
      C1Expansion(s, bs[0]);
      DeliverAllAppend(s, Expand(bs[0]), ExpandAll(bs[1..]));
      StreamExpansion(first.server, bs[1..]);
    }
  }

  /** With a full queue, a completed sequence is translated once and its
      command is lost: the queue, and even the sequence index, stay as the
      decoder left them. */
  lemma QueueFullLosesCommand(s: Server, b: bv8)
    requires ValidServer(s) && |s.parser.cmds| == CommandStackSize && !IsC1(b)
    requires Decode(s.parser, b).outcome.Ready?
    ensures Process(s, b).server.parser == Decode(s.parser, b).next
    ensures Process(s, b).server.parser.cmds == s.parser.cmds
    ensures Process(s, b).events == []
  {
  }

  /** Below capacity, a completed sequence that maps to a command appends
      exactly that command to the queue. */
  lemma CompletedSequenceQueued(s: Server, b: bv8)
    requires ValidServer(s) && |s.parser.cmds| < CommandStackSize && !IsC1(b)
    requires Decode(s.parser, b).outcome.Ready?
    ensures var q := Decode(s.parser, b).next;
      Process(s, b).server.parser.cmds ==
        match SequenceCommand(Captured(q))
        case Some(c) => s.parser.cmds + [c]
        case None => s.parser.cmds
  {
  }

  /** Commands are delivered at most once: a second cycle with no input in
      between makes only the idle call. */
  lemma RunDeliversOnce(s: Server)
    requires ValidServer(s) && s.hasCallback
    ensures Run(Run(s).server).events == [Idle]
  {
  }

  /** Without a callback, a cycle discards the queue silently. */
  lemma RunWithoutCallbackDiscards(s: Server)
    requires ValidServer(s) && !s.hasCallback
    ensures Run(s).events == [] && Run(s).server.parser.cmds == []
  {
  }

  /** Dispatching keeps the parser coherent, so enough backspaces always
      bring it back to `Normal`. */
  lemma ProcessKeepsCoherent(s: Server, b: bv8)
    requires ValidServer(s) && Coherent(s.parser)
    ensures Coherent(Process(s, b).server.parser)
  {
    if IsC1(b) {
      DecodeKeepsCoherent(s.parser, ChEscape);
      var first := Deliver(s, ChEscape);
      DecodeKeepsCoherent(first.server.parser, (b & 0x7F) | 0x40);
    } else {
      DecodeKeepsCoherent(s.parser, b);
    }
  }
}

=== FILE: serial_server.dfy ===
/** The serial dispatcher of source/serialServer.cpp.  The user callback is
    modelled by the trace of calls it receives: `Input` for OnInput,
    `Command` for OnCommand and `Idle` for the callback's Run.  Whether a
    callback is installed is a flag, standing for the null test on the
    callback pointer. */
module SerialServer {
  import opened Ansi
  import opened AnsiParser

  /** `Command` carries the numeric code 0..5 that OnCommand receives. */
  datatype Event = Input(b: bv8) | Command(code: nat) | Idle

  datatype Server = Server(parser: Parser, hasCallback: bool)

  /** A server together with the callback calls one operation made. */
  datatype Step = Step(server: Server, events: seq<Event>)

  predicate ValidServer(s: Server)
  {
    Ansi.Valid(s.parser)
  }

  /** Installs the callback (or none) and resets the parser.  The parser
      may hold anything beforehand. */
  function Open(s: Server, hasCallback: bool): (r: Server)
    ensures ValidServer(r) && r.hasCallback == hasCallback
    ensures r.parser.state == Normal && r.parser.escLast == 0
    ensures r.parser.str == [] && !r.parser.receiving && r.parser.cmds == []
  {
    Server(Reset(s.parser), hasCallback)
  }

  /** One call of the decoder followed by what the dispatcher does with its
      outcome: a character goes to the callback at once, a completed
      sequence is translated and the translation's result is dropped. */
  function Deliver(s: Server, data: bv8): (r: Step)
    requires ValidServer(s)
    ensures ValidServer(r.server) && r.server.hasCallback == s.hasCallback
    ensures r.events == (if s.hasCallback && Decode(s.parser, data).outcome.Char?
                         then [Input(data)] else [])
    ensures s.parser.cmds <= r.server.parser.cmds
    ensures |r.server.parser.cmds| <= |s.parser.cmds| + 1
    ensures |r.server.parser.cmds| == |s.parser.cmds| + 1 ==> Decode(s.parser, data).outcome.Ready?
    // Characters and incomplete sequences leave the parser as the decoder
    // left it; a character leaves it as it was.
    ensures Decode(s.parser, data).outcome.Char? ==> r.server.parser == s.parser
    ensures Decode(s.parser, data).outcome == NeedMore ==>
      r.server.parser == Decode(s.parser, data).next
  {
    var d := Decode(s.parser, data);
    match d.outcome
    case Char(c) =>
      Step(s.(parser := d.next), if s.hasCallback then [Input(c)] else [])
    case Ready =>
      Step(s.(parser := ProcessEscape(d.next).parser), [])
    case NeedMore =>
      Step(s.(parser := d.next), [])
  }

  /** C1 control bytes 0x80..0x9F, except the one-byte CSI 0x9B. */
  predicate IsC1(b: bv8)
  {
    0x80 <= b <= 0x9F && b != ChCsi
  }

  /** The logical bytes a raw byte stands for: a C1 control is ESC
      followed by its 7-bit equivalent, every other byte is itself. */
  function Expand(b: bv8): (r: seq<bv8>)
    ensures IsC1(b) ==> |r| == 2 && r[0] == ChEscape && 0x40 <= r[1] <= 0x5F && r[1] + 0x40 == b
    ensures !IsC1(b) ==> r == [b]
  {
    if IsC1(b) then [ChEscape, (b & 0x7F) | 0x40] else [b]
  }

  /** Processes one raw byte.  A C1 byte first feeds ESC to the decoder;
      as in the source, the byte is then replaced by a character the first
      decode returned (it never returns one) before its 7-bit equivalent is
      formed and fed. */
  function Process(s: Server, data: bv8): (r: Step)
    requires ValidServer(s)
    ensures ValidServer(r.server) && r.server.hasCallback == s.hasCallback
    // Commands and idle calls are never delivered here, and each raw byte
    // yields at most one character.
    ensures forall e | e in r.events :: e.Input?
    ensures |r.events| <= 1
    ensures !s.hasCallback ==> r.events == []
    // The queue only grows, by at most one command.
    ensures s.parser.cmds <= r.server.parser.cmds
    ensures |r.server.parser.cmds| <= |s.parser.cmds| + 1
    // Bytes that are not C1 controls are decoded once, as they are.
    ensures !IsC1(data) ==>
      r.events == (if s.hasCallback && Decode(s.parser, data).outcome.Char? then [Input(data)] else [])
  {
    if data > 127 && data < 160 && data != ChCsi then
      var first := Deliver(s, ChEscape);
      var data' := match Decode(s.parser, ChEscape).outcome
                   case Char(c) => c
                   case _ => data;
      var second := Deliver(first.server, (data' & 0x7F) | 0x40);
      Step(second.server, first.events + second.events)
    else
      Deliver(s, data)
  }

  /** The command events for a run of queued commands, in queue order,
      each carrying its command's numeric code. */
  function CommandEvents(cs: seq<CommandCode>): (es: seq<Event>)
    ensures |es| == |cs|
    ensures forall i :: 0 <= i < |cs| ==> es[i] == Command(Code(cs[i]))
  {
    if cs == [] then [] else [Command(Code(cs[0]))] + CommandEvents(cs[1..])
  }

  /** The per-cycle drain: with a callback, every queued command in index
      order and then one idle call; the queue is emptied in both cases and
      nothing else changes. */
  function Run(s: Server): (r: Step)
    requires ValidServer(s)
    ensures ValidServer(r.server)
    ensures r.server == s.(parser := s.parser.(cmds := []))
    ensures s.hasCallback ==>
      && |r.events| == |s.parser.cmds| + 1
      && (forall i :: 0 <= i < |s.parser.cmds| ==> r.events[i] == Command(Code(s.parser.cmds[i])))
      && r.events[|s.parser.cmds|] == Idle
    ensures !s.hasCallback ==> r.events == []
  {
    var drained := s.(parser := s.parser.(cmds := []));
    if s.hasCallback then Step(drained, CommandEvents(s.parser.cmds) + [Idle])
    else Step(drained, [])
  }

  // ---------------------------------------------------------------------
  // Byte streams

  /** Processes raw bytes in order, collecting the callback calls. */
  function ProcessAll(s: Server, bs: seq<bv8>): (r: Step)
    requires ValidServer(s)
    ensures ValidServer(r.server) && r.server.hasCallback == s.hasCallback
    ensures forall e | e in r.events :: e.Input?
    ensures |r.events| <= |bs|
    ensures s.parser.cmds <= r.server.parser.cmds
    ensures |r.server.parser.cmds| <= |s.parser.cmds| + |bs|
    decreases |bs|
  {
    if bs == [] then Step(s, [])
    else
      var first := Process(s, bs[0]);
      var rest := ProcessAll(first.server, bs[1..]);
      Step(rest.server, first.events + rest.events)
  }

  /** Feeds logical bytes to the decoder one `Deliver` at a time. */
  function DeliverAll(s: Server, bs: seq<bv8>): (r: Step)
    requires ValidServer(s)
    ensures ValidServer(r.server) && r.server.hasCallback == s.hasCallback
    decreases |bs|
  {
    if bs == [] then Step(s, [])
    else
      var first := Deliver(s, bs[0]);
      var rest := DeliverAll(first.server, bs[1..]);
      Step(rest.server, first.events + rest.events)
  }

  function ExpandAll(bs: seq<bv8>): (r: seq<bv8>)
    ensures |bs| <= |r| <= 2 * |bs|
    decreases |bs|
  {
    if bs == [] then [] else Expand(bs[0]) + ExpandAll(bs[1..])
  }
}
